=== FILE: README.md ===
# NavAble moderation core in Dafny

NavAble is a crowdsourced accessibility map. Users submit places such as ramps, accessible toilets and elevators, with photos. Administrators approve or reject each submission. Approved places appear on a public map.

This project models the decision rules and list transformations of that workflow as pure functions over immutable datatypes, and proves properties about them:

- the server's authorization middleware `auth(roles)` (`AuthGate`);
- the Place schema as a validation function (`PlaceSchema`);
- the place endpoints: create, the four listings, approve and reject, over an in-memory store (`PlaceRoutes`);
- the client's route guard `PrivateRoute` (`PrivateRoute`) and the route table of `App.js` (`AppRoutes`);
- the view state of the admin dashboard (`AdminDashboard`) and of the add-place page (`AddPlace`).

Three helper modules sit underneath. `Wrappers` defines `Option`. `Seqs` defines an order-preserving `Filter`. `Text` defines `startsWith`, `indexOf`, `split` and `join`.

Libraries outside the repository become function-valued parameters (oracles):

- JWT verification is `verify: string -> Option<Claims>`.
- `JSON.parse` of the `position` and `facilities` fields is the `Json` pair.
- The object-id cast of a URL id is `castId`.
- Client-side token decoding (`atob` plus `JSON.parse`) is `decode`.

Fresh object ids come from a counter in the store. Network replies become parameters: the reply rows, or `None`/`false` for failure.

Points where the code's behaviour is easy to misread:

- A create with missing required fields or unparsable JSON fails with the generic 500 "Server Error", like any other failure in the handler.
- Status changes are unconditional. Rejected to approved and approved to rejected both succeed (`PlaceRoutes.LastModerationWins`).
- Facilities are a sequence. Checking a facility appends it, and a submission can carry the same facility twice.

Monotonicity of the gate in its role list holds only for non-empty lists (`AuthGate.GateMonotone`). The empty list is a wildcard. A token can pass with `[]` and still be refused with `["admin"]` (`AuthGate.EmptyRolesNotMonotone`).

## Model

| member | source | states |
|---|---|---|
| `AuthGate.Gate` | server/middleware/auth.js:3-28 | 401 "Unauthorized" exactly when the header is missing, empty or lacks the "Bearer " prefix. 401 "Invalid token" exactly when the verifier rejects the second header field. 403 exactly when a verified role fails a non-empty role list. Otherwise Pass, with the verified claims as the user. |
| `AuthGate.StatusCode` | server/middleware/auth.js:7-27 | Unauthorized and InvalidToken are answered 401. Forbidden alone is answered 403. |
| `AuthGate.IsBearer` | server/middleware/auth.js:7 | The header passes the first check exactly when it is present and its first seven characters are "Bearer ". The empty-string test is subsumed. |
| `AuthGate.TokenOf` | server/middleware/auth.js:11 | `split(" ")[1]` exists exactly when the header contains a space, and the field it gives contains no space. |
| `AuthGate.Admits` | server/middleware/auth.js:18 | An empty role list admits every caller. A non-empty list admits exactly a role claim equal to one of its entries. |
| `AuthGate.Credential` | server/middleware/auth.js:11 | A Bearer header always has a second space-separated field, so `split(" ")[1]` is never undefined after the prefix check. |
| `AuthGate.BearerToken` | server/middleware/auth.js:11 | The token is the text after "Bearer " up to the next space. |
| `AuthGate.BearerTokenRoundTrip` | server/middleware/auth.js:11 | "Bearer " followed by a token without spaces hands exactly that token to the verifier. |
| `AuthGate.UnauthorizedIgnoresVerifier` | server/middleware/auth.js:7-9 | A missing or non-Bearer header gives Unauthorized under any two verifiers. The verifier is not consulted. |
| `AuthGate.GateReadsOnlyToken` | server/middleware/auth.js:11-14 | Two verifiers that agree on the extracted token give the same outcome. |
| `AuthGate.VerifyFailureIsNotForbidden` | server/middleware/auth.js:13-27 | A verification failure is InvalidToken with code 401, never 403, whatever the role list. |
| `AuthGate.EmptyRolesAdmitAnyVerified` | server/middleware/auth.js:3-24 | With the default empty role list, every verified token passes with its claims. |
| `AuthGate.GateMonotone` | server/middleware/auth.js:18-24 | A pass with a non-empty role list stays the same pass with any superset of that list. |
| `AuthGate.EmptyRolesNotMonotone` | server/middleware/auth.js:3-22 | A user token passes with `[]` and is refused (403) with `["admin"]`, so the non-emptiness hypothesis above is needed. |
| `Text.Split` | server/middleware/auth.js:11 | `split` on one character gives at least one field, and no field contains the separator. |
| `Text.JoinSplit` | server/middleware/auth.js:11 | Joining the fields of a split gives back the original string. |
| `Text.SplitJoin` | server/middleware/auth.js:11 | Splitting the join of a non-empty list of separator-free fields gives back exactly those fields. |
| `PlaceSchema.Validate` | server/models/place.js:3-14 | A draft is accepted exactly when name and type are non-empty strings, lat and lng are both present, and the status (default "pending") is in the enum. The accepted document carries the draft's fields unchanged, with the status defaulted to pending. |
| `PlaceSchema.ValidateRoundTrip` | server/models/place.js:3-14 | Validating a stored document's own fields accepts exactly the conforming documents and returns them unchanged. |
| `PlaceSchema.StatusName` | server/models/place.js:13 | Pending is stored as "pending", Approved as "approved" and Rejected as "rejected", each string naming exactly one status. |
| `PlaceSchema.WrittenStatusesAre` | server/models/place.js:13 | The statuses whose stored string the written enum `["pending", "approved"]` lists are exactly Pending and Approved. |
| `PlaceSchema.Required` | server/models/place.js:4-5 | A required string field holds exactly when it is present and not the empty string. |
| `PlaceSchema.Conforms` | server/models/place.js:4-13 | A document satisfies the schema exactly when name and type meet the required-string rule and its status is in the enum. |
| `PlaceSchema.DefaultStatusInBothEnums` | server/models/place.js:13 | A draft without a status validates the same under the written enum and the corrected one. |
| `PlaceSchema.RejectedOutsideWrittenEnum` | server/models/place.js:13 | A rejected document fails the written enum and satisfies the corrected one. |
| `PlaceRoutes.Roles` | server/routes/place.js:20-96 | Create and list-all admit user and admin. The approved listing is ungated. Pending, rejected, approve and reject admit only admin. |
| `PlaceRoutes.Denied` | server/middleware/auth.js:7-27 | The response the gate sends carries the gate's status code and its message: 401 "Unauthorized" without a bearer header, 401 "Invalid token" when verification fails, 403 "Forbidden: Insufficient rights" for a role outside the list. |
| `PlaceRoutes.UploadPaths` | server/routes/place.js:30 | Each uploaded file is stored as "/uploads/" plus its file name, one per file, in upload order. |
| `PlaceRoutes.ParseFacilities` | server/routes/place.js:29 | An absent or empty facilities field gives []. Otherwise the result is the JSON parse of the field. |
| `PlaceRoutes.BuildDraft` | server/routes/place.js:21-31 | Building the document fails exactly when position is absent or unparsable, when facilities are unparsable, or when the request carried no file list. Otherwise the draft carries the submitted fields and no status. |
| `PlaceRoutes.CreatePlace` | server/routes/place.js:19-39 | 201 exactly when there are at most 5 files, name and type are non-empty, position parses with lat and lng, and facilities parse. A failure is 500 with the store unchanged: more than 5 files is refused by the upload step, and every other failure is answered 500 "Server Error". On success exactly the next id is added, with status pending, the submitted name, type and description, the parsed lat and lng as its position, default facilities [] and the upload paths. |
| `PlaceRoutes.WithStatus` | server/routes/place.js:51-79 | The listing for a status holds exactly the stored places with that status, with their documents. |
| `PlaceRoutes.Moderate` | server/routes/place.js:81-108 | An id that fails to cast gives 500. An unknown id gives 404. Both leave the store unchanged. Otherwise only the target's status changes, to the given status whatever it was, and the updated document is returned with 200. |
| `PlaceRoutes.Serve` | server/routes/place.js:19-108 | Listings change nothing and answer 200. All returns every place, and approved, pending and rejected return the places with that status. Create runs the create handler. Approve writes Approved with "Place approved", and reject writes Rejected with "Place Rejected". |
| `PlaceRoutes.Handle` | server/routes/place.js:20-108 | A gated route whose gate does not pass answers with the gate's response and leaves the store unchanged. Otherwise the handler runs. |
| `PlaceRoutes.Valid` | server/routes/place.js:24-33 | In a valid store the next id is unused, and every stored place has a non-empty name and type. |
| `PlaceRoutes.HandleKeepsValid` | server/routes/place.js:19-108 | Every request keeps every stored id allocated and every stored document within {pending, approved, rejected} with non-empty name and type. |
| `PlaceRoutes.CreateAddsExactlyOne` | server/routes/place.js:24-34 | A successful create grows the store by exactly one pending place and leaves every existing place unchanged. |
| `PlaceRoutes.ListingsPartition` | server/routes/place.js:51-79 | The pending, approved and rejected listings are pairwise disjoint and together cover the store. |
| `PlaceRoutes.ModerateIdempotent` | server/routes/place.js:82-94 | Approving, or rejecting, twice has the same effect and reply as doing it once. |
| `PlaceRoutes.LastModerationWins` | server/routes/place.js:82-108 | Moderating after any earlier moderation gives the same result as moderating the original store. No transition is guarded. |
| `PlaceRoutes.RejectBreaksWrittenSchema` | server/routes/place.js:96-104 | A successful reject turns a valid place into one the schema's written enum refuses. |
| `PlaceRoutes.AdminRoutesNeedAdmin` | server/routes/place.js:61-108 | If pending, rejected, approve or reject answer anything but 401/403, the header was Bearer and the verified role claim is "admin". |
| `PlaceRoutes.NoHeaderUnauthorized` | server/middleware/auth.js:7-9 | Every gated route answers a request without an Authorization header with 401 "Unauthorized" and changes nothing. |
| `PlaceRoutes.ApprovedListingIsPublic` | server/routes/place.js:51-59 | The approved listing ignores the header, changes nothing, and lists all and only the approved places. |
| `PlaceRoutes.SubmitThenModerate` | server/routes/place.js:19-108 | A fresh submission is listed as pending. After approval it is listed as approved and not as pending. After rejection it is listed only as rejected. |
| `PrivateRoute.AllowedRoles` | client/src/components/PrivateRoute.js:12 | A list prop is kept as it is, and a scalar prop becomes a one-element list. |
| `PrivateRoute.HasToken` | client/src/components/PrivateRoute.js:4-6 | A stored token counts exactly when it is present and not the empty string, as JavaScript truthiness reads it. |
| `PrivateRoute.RoleTruthy` | client/src/components/PrivateRoute.js:14 | The role prop is falsy exactly when it is absent or the empty string. A list, even an empty one, is truthy. |
| `PrivateRoute.Refuses` | client/src/components/PrivateRoute.js:14 | A falsy prop never refuses. A non-empty scalar prop refuses every role but itself. A list prop refuses exactly the roles it does not list. |
| `PrivateRoute.Decide` | client/src/components/PrivateRoute.js:3-22 | No token, or a token that fails to decode, redirects to "/". A decoded role that a truthy role prop does not list redirects to "/unauthorized". Everything else renders the children. |
| `PrivateRoute.NoTokenIgnoresDecoder` | client/src/components/PrivateRoute.js:4-6 | Without a token the redirect to "/" happens under any decoder. |
| `PrivateRoute.ScalarRoleIsSingletonList` | client/src/components/PrivateRoute.js:12 | A non-empty scalar role prop decides exactly like the one-element list holding it. |
| `PrivateRoute.EmptyScalarRoleIsNotItsList` | client/src/components/PrivateRoute.js:12-18 | The empty scalar prop "" is falsy and renders for every decodable token, while the list `[""]` renders only for a role claim equal to "". |
| `PrivateRoute.FalsyRoleRendersAny` | client/src/components/PrivateRoute.js:14-18 | An absent or empty role prop renders for every decodable token. |
| `PrivateRoute.ListedRoleRenders` | client/src/components/PrivateRoute.js:12-18 | With a role list, a decodable token renders exactly when its role is listed, and otherwise redirects to "/unauthorized". |
| `AppRoutes.Lookup` | client/src/App.js:18-55 | The route table. "/" shows Login and "/register" shows Register, both open. "/dashboard" needs "user". "/mapview" and "/addplace" need "user" or "admin". "/admin" needs "admin". "/unauthorized" and every other path show the UnAuthorized page, open. |
| `AppRoutes.Navigate` | client/src/App.js:18-55 | Open pages are shown. Guarded pages are shown, or redirect to "/" or "/unauthorized", as the guard decides. |
| `AppRoutes.LoginAndRegisterOpen` | client/src/App.js:19-20 | "/" and "/register" show their pages for any token. |
| `AppRoutes.UnknownPathUnauthorized` | client/src/App.js:53-54 | Any path outside the table shows the UnAuthorized page. |
| `AppRoutes.DashboardsSeparateRoles` | client/src/App.js:21-52 | An admin token is redirected from "/dashboard" to "/unauthorized" and shown "/admin". A user token gets the reverse. |
| `AppRoutes.SharedPagesAdmitBothRoles` | client/src/App.js:29-44 | "/mapview" and "/addplace" are shown exactly to decodable tokens whose role is "user" or "admin". |
| `AppRoutes.RedirectsSettle` | client/src/App.js:19-54 | Every redirect goes to "/" or "/unauthorized". Following it shows the Login page or the UnAuthorized page respectively, never another redirect. |
| `Seqs.Filter` | client/src/pages/AdminDashboard.jsx:47 | Filtering keeps only passing elements, with their multiplicities, and drops every failing one. |
| `Seqs.FilterAppend` | client/src/pages/AdminDashboard.jsx:47 | Filtering distributes over concatenation, so order is preserved. |
| `AdminDashboard.WithoutId` | client/src/pages/AdminDashboard.jsx:47 | Removing an id drops every row with that id and keeps all other rows with their multiplicities. A list without that id is unchanged. |
| `AdminDashboard.Fetched` | client/src/pages/AdminDashboard.jsx:13-35 | Both lists are replaced when both replies arrive, and neither is replaced otherwise. Loading ends either way. |
| `AdminDashboard.AfterModeration` | client/src/pages/AdminDashboard.jsx:37-65 | A successful approve or reject removes the id from the pending list. A reject does not add the place to the rejected list. A failed request changes nothing. |
| `AdminDashboard.Logout` | client/src/pages/AdminDashboard.jsx:67-70 | Logout removes the token and navigates to "/". |
| `AdminDashboard.LogoutLocksGuardedPages` | client/src/pages/AdminDashboard.jsx:67-70 | After logout every guarded path redirects to "/", because the guard finds no token; the path logout navigates to shows the login page. |
| `AdminDashboard.FetchAllOrNothing` | client/src/pages/AdminDashboard.jsx:7-31 | From the initial state, a failed fetch of either list leaves both lists empty and loading false. |
| `AdminDashboard.ModerationRemovesOnlyId` | client/src/pages/AdminDashboard.jsx:46-63 | After an approve or reject no pending row has the id, and a second one changes nothing. |
| `AdminDashboard.WithoutIdAppend` | client/src/pages/AdminDashboard.jsx:47 | Removing an id from a concatenation removes it from each part in order. |
| `AddPlace.Toggle` | client/src/pages/AddPlace.jsx:284-292 | Checking appends the facility at the end. Unchecking removes every copy. The checkbox then shows checked exactly when it was checked. Other fields are kept. |
| `AddPlace.Checked` | client/src/pages/AddPlace.jsx:284 | A checkbox shows checked exactly when its facility occurs in the form's list at least once. |
| `AddPlace.ToggleRoundTrip` | client/src/pages/AddPlace.jsx:285-292 | Checking then unchecking a facility not in the list restores the form. |
| `AddPlace.UncheckKeepsOthers` | client/src/pages/AddPlace.jsx:291 | Unchecking a facility keeps every other facility with its multiplicity. |
| `AddPlace.DoubleClick` | client/src/pages/AddPlace.jsx:48-83 | A double-click makes the clicked coordinate the candidate and changes nothing else. |
| `AddPlace.Loaded` | client/src/pages/AddPlace.jsx:69-79 | The first listing replaces the markers on success. A failed fetch changes nothing. |
| `AddPlace.UploadOf` | client/src/pages/AddPlace.jsx:95-101 | The posted payload is the form's fields, the candidate position and the chosen photos. |
| `AddPlace.PendingMarker` | client/src/pages/AddPlace.jsx:112-121 | The optimistic marker has a "temp-" id, status "Pending", the candidate position, and the form's name and facilities. |
| `AddPlace.Submit` | client/src/pages/AddPlace.jsx:85-130 | Without a token nothing is sent and nothing changes. With one the payload is sent. A failed reply changes nothing. A successful reply appends the pending marker and clears the candidate, form and photos. |
| `AddPlace.Cancel` | client/src/pages/AddPlace.jsx:311-322 | Cancel clears the candidate, empties every form field, drops the photos and keeps the markers. |
| `AddPlace.PopupClosed` | client/src/pages/AddPlace.jsx:206-208 | Closing the form popup clears only the candidate. |
| `AddPlace.StatusLabel` | client/src/pages/AddPlace.jsx:160 | A missing or empty status is shown as "Approved". Any other status is shown as it is. |
| `AddPlace.AcceptedSubmitAppendsOneMarker` | client/src/pages/AddPlace.jsx:110-124 | A successful submit adds exactly one marker, at the end, shown as "Pending" at the candidate position. The rest of the editor is left as Cancel leaves it. |
| `AddPlace.PopupClosedClearsOnlyCandidate` | client/src/pages/AddPlace.jsx:206-208 | Closing the popup undoes a double-click. It changes nothing after Cancel or an accepted submission, which already cleared the candidate. |
| `AddPlace.ReloadAfterSubmit` | client/src/pages/AddPlace.jsx:69-79 | If the mount-time listing arrives after an accepted submission, it replaces the optimistic marker with the server's rows; the editor stays as Cancel leaves it. |
| `AddPlace.CancelAfterDoubleClick` | client/src/pages/AddPlace.jsx:313-321 | Cancel is idempotent and undoes any double-click. |

## Findings

| source | as written | input that shows it | evidently intended | confidence | as-written member | corrected member |
|---|---|---|---|---|---|---|
| server/models/place.js:13 | The status enum lists only "pending" and "approved". The reject route (server/routes/place.js:100) nevertheless stores "rejected", and the rejected listing (server/routes/place.js:74) reads it. | Reject any existing place: the stored document has status "rejected", which the written enum refuses. | The enum lists "rejected" as well. | high; not executed | `PlaceRoutes.RejectBreaksWrittenSchema` | `PlaceRoutes.HandleKeepsValid` |

The corrected enum is `PlaceSchema.Statuses`. Create validates against it, and `PlaceSchema.DefaultStatusInBothEnums` shows that create behaves the same under either enum. `PlaceSchema.WrittenStatuses` keeps the enum as written.

## Left out

- JWT signing and verification, base64 and JSON decoding, and the object-id cast are oracles. Their internals are not modelled.
- MongoDB persistence is an in-memory map. Connection setup, store failures (the 500 answers of the catch blocks), and whether update validators run are not modelled. The update stores the new status without validation, as the default update does.
- Listing order is not modelled. Listings are maps from id to place, and the store's natural order is not specified.
- Multer disk storage and `Date.now()` file names are not modelled. Stored file names are an input. More than five files gives the framework's 500 error page, `UploadRefused`.
- A required string is present and non-empty. This is the document library's rule for required strings, which lives outside the repository.
- Coordinates are integers. The source uses floating-point numbers.
- Paths are matched exactly. The client router's case-insensitive and trailing-slash matching is not modelled.
- `AddPlace.Submit`: the reply is applied atomically to the state at submission time. Edits made while the request is in flight are not modelled. The browser's `required` check on name and type before submission is also not modelled.
- The plain field setters of the add-place form (name, type, description, photo selection) are not modelled. Each replaces one field.
- The map, geolocation and routing widgets, and the Login, Register, Dashboard and MapView pages, are not modelled. They are third-party UI and navigation.
- server/routes/protected.js is not modelled. Its two routes are instances of the gate already covered by `AuthGate.Gate`.
- Concurrency is not modelled. This includes races between approve and reject, and the timing of the two parallel dashboard fetches.
- Express error handling of a `next()` that throws inside the gate's `try` is not modelled. The router catches handler errors itself.

=== FILE: add_place.dfy ===
/**
  The add-place page's view state: the markers on the map, the candidate
  position picked by double-click, the submission form and the chosen
  photos, with the transitions that the form's controls and the server's
  reply cause. The clock that stamps temporary ids is a parameter.
 */
module AddPlace {
  import opened Wrappers
  import Seqs

  datatype LatLng = LatLng(lat: int, lng: int)

  /** The form fields; `kind` is the source's `type`. */
  datatype Form = Form(name: string, kind: string, description: string, facilities: seq<string>)

  /** A marker: a place from the server or the optimistic local one; `status` None is a missing field. */
  datatype Marker = Marker(
    id: string,
    name: string,
    facilities: seq<string>,
    position: Option<LatLng>,
    status: Option<string>,
    photos: seq<string>)

  datatype Editor = Editor(markers: seq<Marker>, candidate: Option<LatLng>, form: Form, photos: seq<string>)

  /** What the form posts to the server. */
  datatype Upload = Upload(
    name: string,
    kind: string,
    description: string,
    position: Option<LatLng>,
    facilities: seq<string>,
    photos: seq<string>)

  const EmptyForm: Form := Form("", "", "", [])
  const TempPrefix: string := "temp-"

  /** A checkbox shows checked exactly when its facility is in the form's list. */
  function Checked(f: Form, facility: string): (shown: bool)
    ensures shown <==> multiset(f.facilities)[facility] > 0
  {
    facility in f.facilities
  }

  /** The filter test `f !== facility`. */
  function Differs(facility: string): string -> bool {
    (x: string) => x != facility
  }

  /** A checkbox change: checking appends the facility, unchecking removes every copy of it. */
  function Toggle(f: Form, facility: string, checked: bool): (r: Form)
    ensures checked ==> r.facilities == f.facilities + [facility]
    ensures !checked ==> r.facilities == Seqs.Filter(f.facilities, Differs(facility))
    ensures r.name == f.name && r.kind == f.kind && r.description == f.description
    ensures checked <==> Checked(r, facility)
  {
    if checked then f.(facilities := f.facilities + [facility])
    else
      f.(facilities := Seqs.Filter(f.facilities, Differs(facility)))
  }

  /** Checking a facility that is not listed and then unchecking it restores the form. */
  lemma ToggleRoundTrip(f: Form, facility: string)
    requires !Checked(f, facility)
    ensures Toggle(Toggle(f, facility, true), facility, false) == f
  {
    var keep := Differs(facility);
    forall i | 0 <= i < |f.facilities|
      ensures keep(f.facilities[i])
    {
    }
    Seqs.FilterAppend(f.facilities, [facility], keep);
    assert Seqs.Filter([facility], keep) == [];
  }

  /** Unchecking a facility keeps every other facility with its multiplicity. */
  lemma UncheckKeepsOthers(f: Form, facility: string, other: string)
    requires other != facility
    ensures multiset(Toggle(f, facility, false).facilities)[other] == multiset(f.facilities)[other]
  {
  }

  /** A double-click on the map makes its coordinate the candidate position. */
  function DoubleClick(e: Editor, at: LatLng): (r: Editor)
    ensures r.candidate == Some(at)
    ensures r.markers == e.markers && r.form == e.form && r.photos == e.photos
  {
    e.(candidate := Some(at))
  }

  /** The first listing replaces the markers on success; a failed fetch leaves them. */
  function Loaded(e: Editor, reply: Option<seq<Marker>>): (r: Editor)
    ensures reply.Some? ==> r.markers == reply.value
    ensures reply.None? ==> r == e
    ensures r.candidate == e.candidate && r.form == e.form && r.photos == e.photos
  {
    if reply.Some? then e.(markers := reply.value) else e
  }

  /** The payload the form posts: the form's fields, the candidate position and the chosen photos. */
  function UploadOf(e: Editor): (u: Upload)
    ensures u.name == e.form.name && u.kind == e.form.kind && u.description == e.form.description
    ensures u.position == e.candidate && u.facilities == e.form.facilities && u.photos == e.photos
  {
    Upload(e.form.name, e.form.kind, e.form.description, e.candidate, e.form.facilities, e.photos)
  }

  /** The optimistic marker added after a successful submission. */
  function PendingMarker(e: Editor, stamp: string): (m: Marker)
    ensures m.id == TempPrefix + stamp
    ensures m.status == Some("Pending") && m.position == e.candidate
    ensures m.name == e.form.name && m.facilities == e.form.facilities && m.photos == []
  {
    Marker(TempPrefix + stamp, e.form.name, e.form.facilities, e.candidate, Some("Pending"), [])
  }

  /**
    Submitting the form: without a token nothing is sent and nothing changes;
    otherwise the upload is sent and `accepted` is the server's verdict.
    Returns the new state and the upload, if one was sent.
   */
  function Submit(e: Editor, token: Option<string>, accepted: bool, stamp: string): (r: (Editor, Option<Upload>))
    ensures token.None? || token.value == "" ==> r == (e, None)
    ensures token.Some? && token.value != "" ==> r.1 == Some(UploadOf(e))
    ensures token.Some? && token.value != "" && !accepted ==> r.0 == e
    ensures token.Some? && token.value != "" && accepted ==>
              && r.0.markers == e.markers + [PendingMarker(e, stamp)]
              && r.0.candidate.None? && r.0.form == EmptyForm && r.0.photos == []
  {
    if token.None? || token.value == "" then (e, None)
    else if accepted then
      (Editor(e.markers + [PendingMarker(e, stamp)], None, EmptyForm, []), Some(UploadOf(e)))
    else (e, Some(UploadOf(e)))
  }

  /** Cancel clears the candidate, the form and the photos, and keeps the markers. */
  function Cancel(e: Editor): (r: Editor)
    ensures r.candidate.None? && r.form == EmptyForm && r.photos == []
    ensures r.markers == e.markers
  {
    Editor(e.markers, None, EmptyForm, [])
  }

  /** Closing the form's popup clears only the candidate. */
  function PopupClosed(e: Editor): (r: Editor)
    ensures r.candidate.None?
    ensures r.markers == e.markers && r.form == e.form && r.photos == e.photos
  {
    e.(candidate := None)
  }

  /** The status a marker's popup shows: a missing or empty status reads "Approved". */
  function StatusLabel(m: Marker): (shown: string)
    ensures m.status.None? || m.status.value == "" ==> shown == "Approved"
    ensures m.status.Some? && m.status.value != "" ==> shown == m.status.value
  {
    if m.status.None? || m.status.value == "" then "Approved" else m.status.value
  }

  /** A successful submission adds exactly one marker, at the end, showing "Pending", and leaves the editor as Cancel would. */
  lemma AcceptedSubmitAppendsOneMarker(e: Editor, token: string, stamp: string)
    requires token != ""
    ensures var after := Submit(e, Some(token), true, stamp).0;
            && |after.markers| == |e.markers| + 1
            && after.markers[..|e.markers|] == e.markers
            && StatusLabel(after.markers[|e.markers|]) == "Pending"
            && after.markers[|e.markers|].position == e.candidate
            && after == Cancel(e).(markers := after.markers)
  {
  }

  /** Closing the popup undoes a double-click, and changes nothing once Cancel or an accepted submission has cleared the candidate. */
  lemma PopupClosedClearsOnlyCandidate(e: Editor, at: LatLng, token: string, stamp: string)
    requires token != ""
    ensures PopupClosed(DoubleClick(e, at)) == PopupClosed(e)
    ensures PopupClosed(Cancel(e)) == Cancel(e)
    ensures var after := Submit(e, Some(token), true, stamp).0;
            PopupClosed(after) == after
  {
  }

  /** A mount-time listing that arrives after an accepted submission replaces the optimistic marker with the server's rows and keeps the cleared form. */
  lemma ReloadAfterSubmit(e: Editor, token: string, stamp: string, rows: seq<Marker>)
    requires token != ""
    ensures var after := Submit(e, Some(token), true, stamp).0;
            Loaded(after, Some(rows)) == Cancel(e).(markers := rows)
  {
  }

  /** Cancel is idempotent and undoes any double-click. */
  lemma CancelAfterDoubleClick(e: Editor, at: LatLng)
    ensures Cancel(DoubleClick(e, at)) == Cancel(e)
    ensures Cancel(Cancel(e)) == Cancel(e)
  {
  }
}

=== FILE: admin_dashboard.dfy ===
/**
  The admin dashboard's view state: the pending and rejected lists, the
  loading flag, and the updates that follow each server reply. Network
  calls are replaced by their outcome: the reply's rows, or None on failure.
 */
module AdminDashboard {
  import opened Wrappers
  import Seqs
  import PrivateRoute
  import AppRoutes

  /** A place row as the dashboard shows it. */
  datatype Row = Row(id: string, name: string, facilities: seq<string>, photos: seq<string>)

  datatype Dashboard = Dashboard(pending: seq<Row>, rejected: seq<Row>, loading: bool)

  /** Browser storage: the only entry used is the token. */
  datatype Storage = Storage(token: Option<string>)

  /** The state before any reply: both lists empty, loading. */
  const Initial: Dashboard := Dashboard([], [], true)

  /** The filter test `place._id !== id`. */
  function OtherThan(id: string): Row -> bool {
    (x: Row) => x.id != id
  }

  /** The rows whose id differs from `id`, in their original order. */
  function WithoutId(rows: seq<Row>, id: string): (r: seq<Row>)
    ensures forall i :: 0 <= i < |r| ==> r[i].id != id
    ensures forall x: Row :: x.id != id ==> multiset(r)[x] == multiset(rows)[x]
    ensures (forall i :: 0 <= i < |rows| ==> rows[i].id != id) ==> r == rows
  {
    Seqs.Filter(rows, OtherThan(id))
  }

  /** The two listings are fetched together: both replace the lists, or neither does; loading ends either way. */
  function Fetched(d: Dashboard, pendingReply: Option<seq<Row>>, rejectedReply: Option<seq<Row>>): (r: Dashboard)
    ensures !r.loading
    ensures pendingReply.Some? && rejectedReply.Some? ==>
              r.pending == pendingReply.value && r.rejected == rejectedReply.value
    ensures pendingReply.None? || rejectedReply.None? ==> r.pending == d.pending && r.rejected == d.rejected
  {
    if pendingReply.Some? && rejectedReply.Some? then Dashboard(pendingReply.value, rejectedReply.value, false)
    else d.(loading := false)
  }

  /**
    The reply to an approve or a reject request; both handlers do the same.
    On success the place leaves the pending list; the rejected list is not
    refreshed, even after a reject.
   */
  function AfterModeration(d: Dashboard, id: string, ok: bool): (r: Dashboard)
    ensures ok ==> r.pending == WithoutId(d.pending, id)
    ensures !ok ==> r.pending == d.pending
    ensures r.rejected == d.rejected && r.loading == d.loading
  {
    if ok then d.(pending := WithoutId(d.pending, id)) else d
  }

  /** Logout drops the token and navigates to the login page. */
  function Logout(s: Storage): (r: (Storage, string))
    ensures r.0.token.None?
    ensures r.1 == "/"
  {
    (s.(token := None), "/")
  }

  /** Starting from the initial state, a failed fetch leaves both lists empty. */
  lemma FetchAllOrNothing(pendingReply: Option<seq<Row>>, rejectedReply: Option<seq<Row>>)
    requires pendingReply.None? || rejectedReply.None?
    ensures Fetched(Initial, pendingReply, rejectedReply) == Dashboard([], [], false)
  {
  }

  /** After a moderation the id is gone from the pending list: a second one changes nothing. */
  lemma ModerationRemovesOnlyId(d: Dashboard, id: string)
    ensures var r := AfterModeration(d, id, true);
            && (forall i :: 0 <= i < |r.pending| ==> r.pending[i].id != id)
            && AfterModeration(r, id, true) == r
  {
  }

  /** After logout every guarded path redirects to "/", and "/" itself shows the login page. */
  lemma LogoutLocksGuardedPages(s: Storage, path: string, decode: PrivateRoute.Decoder)
    requires AppRoutes.Lookup(path).Guarded?
    ensures AppRoutes.Navigate(path, Logout(s).0.token, decode) == AppRoutes.Redirect(AppRoutes.Home)
    ensures AppRoutes.Navigate(Logout(s).1, Logout(s).0.token, decode) == AppRoutes.Show(AppRoutes.LoginPage)
  {
  }

  /** Removal from the list is order-preserving: it distributes over concatenation. */
  lemma WithoutIdAppend(a: seq<Row>, b: seq<Row>, id: string)
    ensures WithoutId(a + b, id) == WithoutId(a, id) + WithoutId(b, id)
  {
    Seqs.FilterAppend(a, b, OtherThan(id));
  }
}

=== FILE: app_routes.dfy ===
/** The client's route table: which page each path shows and which role prop guards it. */
module AppRoutes {
  import opened Wrappers
  import opened PrivateRoute

  datatype Page = LoginPage | RegisterPage | DashboardPage | MapViewPage | AdminPage | AddPlacePage | UnAuthorizedPage

  /** A table entry: an open page, or a page behind the guard with the given role prop. */
  datatype Entry = Open(page: Page) | Guarded(page: Page, role: RoleProp)

  datatype View = Show(page: Page) | Redirect(to: string)

  const Home: string := "/"
  const UnauthorizedPath: string := "/unauthorized"

  /** The set of paths the table names explicitly. */
  const Listed: set<string> := {"/", "/register", "/dashboard", "/mapview", "/addplace", "/admin", UnauthorizedPath}

  /** The entry for a path; any path not listed falls through to the catch-all. */
  function Lookup(path: string): (e: Entry)
    ensures path == "/" ==> e == Open(LoginPage)
    ensures path == "/register" ==> e == Open(RegisterPage)
    ensures path == "/dashboard" ==> e == Guarded(DashboardPage, OneRole("user"))
    ensures path == "/mapview" ==> e == Guarded(MapViewPage, RoleList(["user", "admin"]))
    ensures path == "/addplace" ==> e == Guarded(AddPlacePage, RoleList(["user", "admin"]))
    ensures path == "/admin" ==> e == Guarded(AdminPage, OneRole("admin"))
    ensures path == UnauthorizedPath ==> e == Open(UnAuthorizedPage)
    ensures path !in Listed ==> e == Open(UnAuthorizedPage)
  {
    if path == "/" then Open(LoginPage)
    else if path == "/register" then Open(RegisterPage)
    else if path == "/dashboard" then Guarded(DashboardPage, OneRole("user"))
    else if path == "/mapview" then Guarded(MapViewPage, RoleList(["user", "admin"]))
    else if path == "/addplace" then Guarded(AddPlacePage, RoleList(["user", "admin"]))
    else if path == "/admin" then Guarded(AdminPage, OneRole("admin"))
    else if path == "/unauthorized" then Open(UnAuthorizedPage)
    else Open(UnAuthorizedPage)
  }

  /** What navigating to `path` shows, given the stored token. */
  function Navigate(path: string, token: Option<string>, decode: Decoder): (v: View)
    ensures Lookup(path).Open? ==> v == Show(Lookup(path).page)
    ensures Lookup(path).Guarded? ==>
              match Decide(token, Lookup(path).role, decode)
              case Render => v == Show(Lookup(path).page)
              case RedirectHome => v == Redirect(Home)
              case RedirectUnauthorized => v == Redirect(UnauthorizedPath)
  {
    match Lookup(path)
    case Open(page) => Show(page)
    case Guarded(page, role) =>
      match Decide(token, role, decode)
      case Render => Show(page)
      case RedirectHome => Redirect(Home)
      case RedirectUnauthorized => Redirect(UnauthorizedPath)
  }

  /** Login and register are never guarded. */
  lemma LoginAndRegisterOpen(token: Option<string>, decode: Decoder)
    ensures Navigate("/", token, decode) == Show(LoginPage)
    ensures Navigate("/register", token, decode) == Show(RegisterPage)
  {
  }

  /** Any unlisted path shows the unauthorized page. */
  lemma UnknownPathUnauthorized(path: string, token: Option<string>, decode: Decoder)
    requires path !in Listed
    ensures Navigate(path, token, decode) == Show(UnAuthorizedPage)
  {
  }

  /** An admin token is sent away from the user dashboard, and a user token from the admin page. */
  lemma DashboardsSeparateRoles(token: Option<string>, decode: Decoder)
    requires HasToken(token)
    ensures decode(token.value) == Some(Payload(Some("admin"))) ==>
              Navigate("/dashboard", token, decode) == Redirect(UnauthorizedPath)
              && Navigate("/admin", token, decode) == Show(AdminPage)
    ensures decode(token.value) == Some(Payload(Some("user"))) ==>
              Navigate("/admin", token, decode) == Redirect(UnauthorizedPath)
              && Navigate("/dashboard", token, decode) == Show(DashboardPage)
  {
  }

  /** The map and add-place pages admit both roles and nothing else. */
  lemma SharedPagesAdmitBothRoles(path: string, token: Option<string>, decode: Decoder)
    requires path in {"/mapview", "/addplace"}
    requires HasToken(token) && decode(token.value).Some?
    ensures Navigate(path, token, decode).Show? <==> decode(token.value).value.role in {Some("user"), Some("admin")}
  {
    ListedRoleRenders(token, ["user", "admin"], decode);
  }

  /** Redirect targets are open pages: "/" shows the login page and "/unauthorized" the unauthorized page. */
  lemma RedirectsSettle(path: string, token: Option<string>, decode: Decoder)
    ensures var v := Navigate(path, token, decode);
            v == Redirect(Home) ==> Navigate(v.to, token, decode) == Show(LoginPage)
    ensures var v := Navigate(path, token, decode);
            v == Redirect(UnauthorizedPath) ==> Navigate(v.to, token, decode) == Show(UnAuthorizedPage)
    ensures var v := Navigate(path, token, decode);
            v.Redirect? ==> v.to in {Home, UnauthorizedPath}
  {
  }
}

=== FILE: auth_gate.dfy ===
/**
  The server's authorization middleware `auth(roles)`: a decision taken on the
  Authorization header, the route's allowed roles and the token verifier.
  Signature and expiry checking (`jwt.verify` with the server secret) is an
  oracle `verify` that either yields the token's claims or fails.
 */
module AuthGate {
  import opened Wrappers
  import opened Text

  /** A verified token payload: the role claim (absent when the payload has none) and the other claims. */
  datatype Claims = Claims(role: Option<string>, other: map<string, string>)

  /** What the middleware does with a request. */
  datatype Outcome =
    | Unauthorized      // 401 "Unauthorized"
    | InvalidToken      // 401 "Invalid token"
    | Forbidden         // 403 "Forbidden: Insufficient rights"
    | Pass(user: Claims) // `req.user` is set and the route handler runs

  type Verifier = string -> Option<Claims>

  const BearerPrefix: string := "Bearer "

  /** HTTP status code the middleware answers with when it stops the request. */
  function StatusCode(o: Outcome): (code: int)
    requires !o.Pass?
    ensures code == 401 <==> (o == Unauthorized || o == InvalidToken)
    ensures code == 403 <==> o == Forbidden
  {
    match o
    case Unauthorized => 401
    case InvalidToken => 401
    case Forbidden => 403
  }

  /** The header is present, non-empty and starts with "Bearer ". */
  function IsBearer(header: Option<string>): (ok: bool)
    ensures ok <==> header.Some? && |header.value| >= 7 && header.value[..7] == "Bearer "
  {
    header.Some? && header.value != "" && StartsWith(header.value, BearerPrefix)
  }

  /** `authHeader.split(" ")[1]`: None stands for `undefined`. */
  function TokenOf(header: string): (token: Option<string>)
    ensures token.Some? <==> ' ' in header
    ensures token.Some? ==> ' ' !in token.value
  {
    var fields := Split(header, ' ');
    if |fields| >= 2 then Some(fields[1]) else None
  }

  /** The role check: an empty role list admits every caller, otherwise the role claim must be listed. */
  function Admits(roles: seq<string>, role: Option<string>): (ok: bool)
    ensures |roles| == 0 ==> ok
    ensures |roles| > 0 ==> (ok <==> exists i :: 0 <= i < |roles| && Some(roles[i]) == role)
  {
    |roles| == 0 || (role.Some? && role.value in roles)
  }

  /** A Bearer header always has a second space-separated field: the text after "Bearer " up to the next space. */
  lemma BearerToken(header: string)
    requires StartsWith(header, BearerPrefix)
    ensures var rest := header[|BearerPrefix|..];
            TokenOf(header) == Some(rest[..IndexOf(rest, ' ')])
  {
    var rest := header[|BearerPrefix|..];
    assert header == "Bearer" + [' '] + rest;
    SecondField("Bearer", ' ', rest);
  }

  /** The token a Bearer header carries: the second space-separated field, never `undefined`. */
  function Credential(header: Option<string>): (token: string)
    requires IsBearer(header)
    ensures TokenOf(header.value) == Some(token)
  {
    BearerToken(header.value);
    TokenOf(header.value).value
  }

  /** A token without spaces sent as "Bearer <token>" is the token handed to the verifier. */
  lemma BearerTokenRoundTrip(token: string)
    requires ' ' !in token
    ensures TokenOf(BearerPrefix + token) == Some(token)
  {
    var header := BearerPrefix + token;
    assert header[..|BearerPrefix|] == BearerPrefix;
    assert header[|BearerPrefix|..] == token;
    assert IndexOf(token, ' ') == |token|;
    assert token[..|token|] == token;
    BearerToken(header);
  }

  /** The middleware `auth(roles)` applied to one request. */
  function Gate(header: Option<string>, roles: seq<string>, verify: Verifier): (r: Outcome)
    ensures r == Unauthorized <==> !IsBearer(header)
    ensures r == InvalidToken <==> IsBearer(header) && verify(Credential(header)).None?
    ensures r == Forbidden <==>
              IsBearer(header) && verify(Credential(header)).Some? &&
              !Admits(roles, verify(Credential(header)).value.role)
    ensures r.Pass? <==>
              IsBearer(header) && verify(Credential(header)).Some? &&
              Admits(roles, verify(Credential(header)).value.role)
    ensures r.Pass? ==> Some(r.user) == verify(Credential(header))
  {
    if !IsBearer(header) then Unauthorized
    else
      BearerToken(header.value);
      match TokenOf(header.value)
      case None => InvalidToken // `jwt.verify(undefined)` throws; unreachable after a Bearer prefix
      case Some(token) =>
        match verify(token)
        case None => InvalidToken
        case Some(claims) => if !Admits(roles, claims.role) then Forbidden else Pass(claims)
  }

  /** A missing or non-Bearer header is refused whatever the verifier would say. */
  lemma UnauthorizedIgnoresVerifier(header: Option<string>, roles: seq<string>, v1: Verifier, v2: Verifier)
    requires !IsBearer(header)
    ensures Gate(header, roles, v1) == Gate(header, roles, v2) == Unauthorized
  {
  }

  /** The gate consults the verifier only on the second header field. */
  lemma GateReadsOnlyToken(header: Option<string>, roles: seq<string>, v1: Verifier, v2: Verifier)
    requires IsBearer(header)
    requires v1(Credential(header)) == v2(Credential(header))
    ensures Gate(header, roles, v1) == Gate(header, roles, v2)
  {
  }

  /** A verification failure is answered 401, never 403, whatever the role list. */
  lemma VerifyFailureIsNotForbidden(header: Option<string>, roles: seq<string>, verify: Verifier)
    requires IsBearer(header) && verify(Credential(header)).None?
    ensures Gate(header, roles, verify) == InvalidToken
    ensures StatusCode(Gate(header, roles, verify)) == 401
  {
  }

  /** With the default empty role list every verified token passes, with its claims as the user. */
  lemma EmptyRolesAdmitAnyVerified(header: Option<string>, verify: Verifier)
    requires IsBearer(header) && verify(Credential(header)).Some?
    ensures Gate(header, [], verify) == Pass(verify(Credential(header)).value)
  {
  }

  /** Passing with a non-empty role list survives adding roles to the list. */
  lemma GateMonotone(header: Option<string>, roles: seq<string>, more: seq<string>, verify: Verifier)
    requires |roles| > 0
    requires forall x :: x in roles ==> x in more
    requires Gate(header, roles, verify).Pass?
    ensures Gate(header, more, verify) == Gate(header, roles, verify)
  {
  }

  /** The empty list is a wildcard, not the least role list: a pass with [] can be a 403 with ["admin"]. */
  lemma EmptyRolesNotMonotone()
    ensures var header := Some(BearerPrefix + "t");
            var verify: Verifier := _ => Some(Claims(Some("user"), map[]));
            Gate(header, [], verify).Pass? && Gate(header, ["admin"], verify) == Forbidden
  {
  }
}

=== FILE: place_routes.dfy ===
/**
  The place workflow endpoints: create, the four listings, approve and reject,
  each behind the authorization gate with its fixed role list. The document
  store is an in-memory map; the counter `next` stands for fresh object ids.
 */
module PlaceRoutes {
  import opened Wrappers
  import opened AuthGate
  import opened PlaceSchema

  type Id = nat

  datatype Store = Store(places: map<Id, Place>, next: Id)

  /** Every stored id was allocated, and every stored document satisfies the schema with the full status enum. */
  function Valid(store: Store): (ok: bool)
    ensures ok ==> store.next !in store.places
    ensures ok ==> forall id :: id in store.places ==> |store.places[id].name| > 0 && |store.places[id].kind| > 0
  {
    && (forall id :: id in store.places ==> id < store.next)
    && (forall id :: id in store.places ==> Conforms(store.places[id], Statuses))
  }

  datatype Body =
    | Message(text: string)
    | Listing(places: map<Id, Place>)
    | Updated(text: string, place: Place)
    | UploadRefused // the upload middleware's own error, answered by the framework

  datatype Response = Response(code: int, body: Body)

  /** The text fields of the multipart create request; None is a field that was not sent. */
  datatype Submission = Submission(
    name: Option<string>,
    kind: Option<string>,
    description: Option<string>,
    position: Option<string>,
    facilities: Option<string>)

  /** `JSON.parse` of the two JSON-encoded fields: None when parsing throws. */
  datatype Json = Json(position: string -> Option<RawPosition>, facilities: string -> Option<seq<string>>)

  datatype Route =
    | Create(form: Submission, files: Option<seq<string>>) // files: stored file names; None when the body is not multipart
    | ListAll
    | ListApproved
    | ListPending
    | ListRejected
    | Approve(rawId: string)
    | Reject(rawId: string)

  datatype Request = Request(header: Option<string>, route: Route)

  /** The collaborators the routes call but this model does not contain. */
  datatype Env = Env(verify: Verifier, json: Json, castId: string -> Option<Id>)

  const MaxPhotos: nat := 5
  const UploadDir: string := "/uploads/"
  const ServerError: Response := Response(500, Message("Server Error"))
  const NotFound: Response := Response(404, Message("Place not found"))
  const Submitted: Response := Response(201, Message("Place submitted for approval."))

  /** The role list each route passes to the gate; None for the public listing. */
  function Roles(route: Route): (roles: Option<seq<string>>)
    ensures route.ListApproved? <==> roles.None?
    ensures route.Create? || route.ListAll? ==> roles == Some(["user", "admin"])
    ensures route.ListPending? || route.ListRejected? || route.Approve? || route.Reject? ==>
              roles == Some(["admin"])
  {
    match route
    case Create(_, _) => Some(["user", "admin"])
    case ListAll => Some(["user", "admin"])
    case ListApproved => None
    case ListPending => Some(["admin"])
    case ListRejected => Some(["admin"])
    case Approve(_) => Some(["admin"])
    case Reject(_) => Some(["admin"])
  }

  /** The response the gate sends when it stops a request. */
  function Denied(o: Outcome): (r: Response)
    requires !o.Pass?
    ensures r.code == StatusCode(o)
    ensures o == Unauthorized ==> r.body == Message("Unauthorized")
    ensures o == InvalidToken ==> r.body == Message("Invalid token")
    ensures o == Forbidden ==> r.body == Message("Forbidden: Insufficient rights")
  {
    match o
    case Unauthorized => Response(401, Message("Unauthorized"))
    case InvalidToken => Response(401, Message("Invalid token"))
    case Forbidden => Response(403, Message("Forbidden: Insufficient rights"))
  }

  /** The stored path of each uploaded file, in upload order. */
  function UploadPaths(files: seq<string>): (paths: seq<string>)
    ensures |paths| == |files|
    ensures forall i :: 0 <= i < |files| ==> paths[i] == UploadDir + files[i]
  {
    seq(|files|, i requires 0 <= i < |files| => UploadDir + files[i])
  }

  /** `facilities ? JSON.parse(facilities) : []`: an absent or empty field gives no facilities. */
  function ParseFacilities(field: Option<string>, json: Json): (r: Option<seq<string>>)
    ensures field.None? || field.value == "" ==> r == Some([])
    ensures field.Some? && field.value != "" ==> r == json.facilities(field.value)
  {
    if field.None? || field.value == "" then Some([]) else json.facilities(field.value)
  }

  /** The document the create handler builds, or None when building it throws. */
  function BuildDraft(form: Submission, files: Option<seq<string>>, json: Json): (r: Option<Draft>)
    ensures r.Some? <==>
              && form.position.Some? && json.position(form.position.value).Some?
              && ParseFacilities(form.facilities, json).Some?
              && files.Some?
    ensures r.Some? ==>
              && r.value.name == form.name && r.value.kind == form.kind
              && r.value.description == form.description
              && Some(r.value.position) == json.position(form.position.value)
              && Some(r.value.facilities) == ParseFacilities(form.facilities, json)
              && r.value.photos == UploadPaths(files.value)
              && r.value.status.None?
  {
    if form.position.None? then None // JSON.parse(undefined) throws
    else match json.position(form.position.value)
      case None => None
      case Some(position) =>
        match ParseFacilities(form.facilities, json)
        case None => None
        case Some(facilities) =>
          if files.None? then None // `req.files.map` on undefined throws
          else Some(Draft(form.name, form.kind, form.description, position, facilities,
                          UploadPaths(files.value), None))
  }

  /** POST /places after the gate: upload limit, document construction, validation, insertion. */
  function CreatePlace(store: Store, form: Submission, files: Option<seq<string>>, json: Json): (r: (Store, Response))
    ensures r.1.code in {201, 500}
    ensures r.1.code == 201 <==>
              && files.Some? && |files.value| <= MaxPhotos
              && Required(form.name) && Required(form.kind)
              && form.position.Some? && json.position(form.position.value).Some?
              && json.position(form.position.value).value.lat.Some?
              && json.position(form.position.value).value.lng.Some?
              && ParseFacilities(form.facilities, json).Some?
    ensures r.1.code != 201 ==> r.0 == store
    ensures r.1.code != 201 && !(files.Some? && |files.value| > MaxPhotos) ==> r.1 == ServerError
    ensures files.Some? && |files.value| > MaxPhotos ==> r == (store, Response(500, UploadRefused))
    ensures form.position.None? ==> r.1.code == 500
    ensures form.position.Some? && json.position(form.position.value).None? ==> r.1.code == 500
    ensures r.1.code == 201 ==>
              && r.1 == Submitted
              && r.0.next == store.next + 1
              && r.0.places.Keys == store.places.Keys + {store.next}
              && (forall id :: id in store.places && id != store.next ==> r.0.places[id] == store.places[id])
              && var p := r.0.places[store.next];
                 && p.status == Pending
                 && Required(form.name) && p.name == form.name.value
                 && Required(form.kind) && p.kind == form.kind.value
                 && p.description == form.description
                 && p.position == Position(json.position(form.position.value).value.lat.value,
                                           json.position(form.position.value).value.lng.value)
                 && files.Some? && |p.photos| == |files.value| <= MaxPhotos
                 && p.photos == UploadPaths(files.value)
                 && (form.facilities.None? || form.facilities.value == "" ==> p.facilities == [])
                 && Some(p.facilities) == ParseFacilities(form.facilities, json)
  {
    if files.Some? && |files.value| > MaxPhotos then (store, Response(500, UploadRefused))
    else match BuildDraft(form, files, json)
      case None => (store, ServerError)
      case Some(draft) =>
        match Validate(draft, Statuses)
        case None => (store, ServerError)
        case Some(p) => (Store(store.places[store.next := p], store.next + 1), Submitted)
  }

  /** The places whose status is `s`, with their documents. */
  function WithStatus(places: map<Id, Place>, s: Status): (r: map<Id, Place>)
    ensures forall id :: id in r <==> id in places && places[id].status == s
    ensures forall id :: id in r ==> r[id] == places[id]
  {
    map id | id in places && places[id].status == s :: places[id]
  }

  /** PUT approve/reject after the gate: set the target's status whatever it was. */
  function Moderate(store: Store, rawId: string, castId: string -> Option<Id>, s: Status, text: string): (r: (Store, Response))
    ensures castId(rawId).None? ==> r == (store, ServerError)
    ensures castId(rawId).Some? && castId(rawId).value !in store.places ==> r == (store, NotFound)
    ensures castId(rawId).Some? && castId(rawId).value in store.places ==>
              var id := castId(rawId).value;
              && r.0.next == store.next
              && r.0.places.Keys == store.places.Keys
              && r.0.places[id].status == s
              && r.0.places[id] == store.places[id].(status := s)
              && (forall other :: other in store.places && other != id ==> r.0.places[other] == store.places[other])
              && r.1 == Response(200, Updated(text, r.0.places[id]))
  {
    match castId(rawId)
    case None => (store, ServerError) // an id that is not an object id fails to cast
    case Some(id) =>
      if id !in store.places then (store, NotFound)
      else
        var updated := store.places[id].(status := s);
        (store.(places := store.places[id := updated]), Response(200, Updated(text, updated)))
  }

  /** A route handler, run once the gate has passed (or at once for the public route). */
  function Serve(store: Store, route: Route, env: Env): (r: (Store, Response))
    ensures !route.Create? && !route.Approve? && !route.Reject? ==> r.0 == store && r.1.code == 200
    ensures route.ListAll? ==> r.1.body == Listing(store.places)
    ensures route.ListApproved? ==> r.1.body == Listing(WithStatus(store.places, Approved))
    ensures route.ListPending? ==> r.1.body == Listing(WithStatus(store.places, Pending))
    ensures route.ListRejected? ==> r.1.body == Listing(WithStatus(store.places, Rejected))
    ensures route.Create? ==> r == CreatePlace(store, route.form, route.files, env.json)
    ensures route.Approve? ==> r == Moderate(store, route.rawId, env.castId, Approved, "Place approved")
    ensures route.Reject? ==> r == Moderate(store, route.rawId, env.castId, Rejected, "Place Rejected")
  {
    match route
    case Create(form, files) => CreatePlace(store, form, files, env.json)
    case ListAll => (store, Response(200, Listing(store.places)))
    case ListApproved => (store, Response(200, Listing(WithStatus(store.places, Approved))))
    case ListPending => (store, Response(200, Listing(WithStatus(store.places, Pending))))
    case ListRejected => (store, Response(200, Listing(WithStatus(store.places, Rejected))))
    case Approve(rawId) => Moderate(store, rawId, env.castId, Approved, "Place approved")
    case Reject(rawId) => Moderate(store, rawId, env.castId, Rejected, "Place Rejected")
  }

  /** A request through the router: the route's gate, then its handler. */
  function Handle(store: Store, req: Request, env: Env): (r: (Store, Response))
    ensures Roles(req.route).Some? && !Gate(req.header, Roles(req.route).value, env.verify).Pass? ==>
              r == (store, Denied(Gate(req.header, Roles(req.route).value, env.verify)))
    ensures Roles(req.route).None? || Gate(req.header, Roles(req.route).value, env.verify).Pass? ==>
              r == Serve(store, req.route, env)
  {
    match Roles(req.route)
    case None => Serve(store, req.route, env)
    case Some(roles) =>
      var outcome := Gate(req.header, roles, env.verify);
      if outcome.Pass? then Serve(store, req.route, env) else (store, Denied(outcome))
  }

  /** Every operation keeps the store valid: allocated ids, and documents that satisfy the full status enum. */
  lemma HandleKeepsValid(store: Store, req: Request, env: Env)
    requires Valid(store)
    ensures Valid(Handle(store, req, env).0)
  {
  }

  /** A successful create on a valid store adds exactly one place and keeps all the others. */
  lemma CreateAddsExactlyOne(store: Store, form: Submission, files: Option<seq<string>>, json: Json)
    requires Valid(store)
    requires CreatePlace(store, form, files, json).1.code == 201
    ensures var after := CreatePlace(store, form, files, json).0;
            && store.next !in store.places
            && |after.places| == |store.places| + 1
            && (forall id :: id in store.places ==> id in after.places && after.places[id] == store.places[id])
            && after.places[store.next].status == Pending
  {
  }

  /** The pending, approved and rejected listings partition the store. */
  lemma ListingsPartition(places: map<Id, Place>)
    ensures WithStatus(places, Pending).Keys + WithStatus(places, Approved).Keys
            + WithStatus(places, Rejected).Keys == places.Keys
    ensures WithStatus(places, Pending).Keys !! WithStatus(places, Approved).Keys
    ensures WithStatus(places, Pending).Keys !! WithStatus(places, Rejected).Keys
    ensures WithStatus(places, Approved).Keys !! WithStatus(places, Rejected).Keys
  {
  }

  /** Setting the same status twice has the effect of setting it once. */
  lemma ModerateIdempotent(store: Store, rawId: string, castId: string -> Option<Id>, s: Status, text: string)
    ensures var once := Moderate(store, rawId, castId, s, text);
            Moderate(once.0, rawId, castId, s, text) == once
  {
    var once := Moderate(store, rawId, castId, s, text);
    if castId(rawId).Some? && castId(rawId).value in store.places {
      var id := castId(rawId).value;
      assert once.0.places[id := once.0.places[id]] == once.0.places;
    }
  }

  /** No transition is guarded: the outcome of a moderation does not depend on any earlier one. */
  lemma LastModerationWins(store: Store, rawId: string, castId: string -> Option<Id>, s1: Status, t1: string, s2: Status, t2: string)
    ensures var first := Moderate(store, rawId, castId, s1, t1);
            Moderate(first.0, rawId, castId, s2, t2) == Moderate(store, rawId, castId, s2, t2)
  {
    var first := Moderate(store, rawId, castId, s1, t1);
    if castId(rawId).Some? && castId(rawId).value in store.places {
      var id := castId(rawId).value;
      var second := Moderate(first.0, rawId, castId, s2, t2);
      var direct := Moderate(store, rawId, castId, s2, t2);
      assert second.0.places == direct.0.places;
    }
  }

  /** A rejected place, as the reject route stores it, no longer satisfies the schema as written. */
  lemma RejectBreaksWrittenSchema(store: Store, header: Option<string>, rawId: string, env: Env)
    requires Valid(store)
    requires Handle(store, Request(header, Reject(rawId)), env).1.code == 200
    ensures var id := env.castId(rawId).value;
            var after := Handle(store, Request(header, Reject(rawId)), env).0;
            && id in store.places && Conforms(store.places[id], Statuses)
            && !Conforms(after.places[id], WrittenStatuses)
  {
  }

  /** Only a verified token whose role claim is "admin" gets past the admin routes. */
  lemma AdminRoutesNeedAdmin(store: Store, req: Request, env: Env)
    requires req.route.ListPending? || req.route.ListRejected? || req.route.Approve? || req.route.Reject?
    requires Handle(store, req, env).1.code !in {401, 403}
    ensures IsBearer(req.header)
    ensures env.verify(Credential(req.header)).Some?
    ensures env.verify(Credential(req.header)).value.role == Some("admin")
  {
  }

  /** Without an Authorization header every gated route answers 401 "Unauthorized" and changes nothing. */
  lemma NoHeaderUnauthorized(store: Store, route: Route, env: Env)
    requires !route.ListApproved?
    ensures Handle(store, Request(None, route), env) == (store, Response(401, Message("Unauthorized")))
  {
  }

  /** The public listing ignores the header and never shows a pending or rejected place. */
  lemma ApprovedListingIsPublic(store: Store, header: Option<string>, env: Env)
    ensures var r := Handle(store, Request(header, ListApproved), env);
            && r.0 == store && r.1.code == 200 && r.1.body.Listing?
            && (forall id :: id in r.1.body.places ==> r.1.body.places[id].status == Approved)
            && (forall id :: id in store.places && store.places[id].status == Approved ==> id in r.1.body.places)
  {
  }

  /** A fresh submission is listed as pending; once approved it is listed as approved and no longer pending; once rejected, only as rejected. */
  lemma SubmitThenModerate(store: Store, form: Submission, files: Option<seq<string>>, env: Env, rawId: string)
    requires Valid(store)
    requires CreatePlace(store, form, files, env.json).1.code == 201
    requires env.castId(rawId) == Some(store.next)
    ensures var created := CreatePlace(store, form, files, env.json).0;
            store.next in WithStatus(created.places, Pending)
    ensures var created := CreatePlace(store, form, files, env.json).0;
            var approved := Serve(created, Approve(rawId), env).0;
            store.next in WithStatus(approved.places, Approved) && store.next !in WithStatus(approved.places, Pending)
    ensures var created := CreatePlace(store, form, files, env.json).0;
            var rejected := Serve(created, Reject(rawId), env).0;
            && store.next in WithStatus(rejected.places, Rejected)
            && store.next !in WithStatus(rejected.places, Approved)
            && store.next !in WithStatus(rejected.places, Pending)
  {
  }
}

=== FILE: place_schema.dfy ===
/**
  The Place document and its schema: which documents the store accepts on save.
  Coordinates are integers here; the source stores floating-point numbers.
 */
module PlaceSchema {
  import opened Wrappers

  datatype Status = Pending | Approved | Rejected

  /** The string the store holds for each status; distinct statuses get distinct strings. */
  function StatusName(s: Status): (name: string)
    ensures s == Pending <==> name == "pending"
    ensures s == Approved <==> name == "approved"
    ensures s == Rejected <==> name == "rejected"
  {
    match s
    case Pending => "pending"
    case Approved => "approved"
    case Rejected => "rejected"
  }

  datatype Position = Position(lat: int, lng: int)

  /** A stored Place; `kind` is the source's `type` field. */
  datatype Place = Place(
    name: string,
    kind: string,
    description: Option<string>,
    position: Position,
    facilities: seq<string>,
    photos: seq<string>,
    status: Status)

  /** A position as the submission supplies it: either coordinate may be absent or not a number. */
  datatype RawPosition = RawPosition(lat: Option<int>, lng: Option<int>)

  /** A document before validation: the fields handed to the model's constructor. */
  datatype Draft = Draft(
    name: Option<string>,
    kind: Option<string>,
    description: Option<string>,
    position: RawPosition,
    facilities: seq<string>,
    photos: seq<string>,
    status: Option<Status>)

  /** The status enum exactly as the schema lists it: "rejected" is missing. */
  const WrittenEnum: seq<string> := ["pending", "approved"]

  /** The statuses whose stored string the written enum lists. */
  const WrittenStatuses: set<Status> := set s | s in Statuses && StatusName(s) in WrittenEnum

  /** The enum the routes evidently rely on: every status a route writes. */
  const Statuses: set<Status> := {Pending, Approved, Rejected}

  /** The written enum admits exactly the pending and approved statuses. */
  lemma WrittenStatusesAre()
    ensures WrittenStatuses == {Pending, Approved}
  {
    assert StatusName(Rejected) !in WrittenEnum;
  }

  /** A required string must be present and non-empty. */
  function Required(v: Option<string>): (ok: bool)
    ensures ok <==> v != None && v != Some("")
  {
    v.Some? && |v.value| > 0
  }

  /** A stored document satisfies the schema whose status enum is `allowed`. */
  function Conforms(p: Place, allowed: set<Status>): (ok: bool)
    ensures ok <==> Required(Some(p.name)) && Required(Some(p.kind)) && p.status in allowed
  {
    |p.name| > 0 && |p.kind| > 0 && p.status in allowed
  }

  /** The status written when none is supplied. */
  const DefaultStatus: Status := Pending

  /** Construction plus save-time validation: the defaulted document, or None for a validation error. */
  function Validate(d: Draft, allowed: set<Status>): (r: Option<Place>)
    ensures r.Some? <==>
              Required(d.name) && Required(d.kind) &&
              d.position.lat.Some? && d.position.lng.Some? &&
              d.status.GetOr(DefaultStatus) in allowed
    ensures r.Some? ==> Conforms(r.value, allowed)
    ensures r.Some? ==>
              && r.value.name == d.name.value
              && r.value.kind == d.kind.value
              && r.value.description == d.description
              && r.value.position == Position(d.position.lat.value, d.position.lng.value)
              && r.value.facilities == d.facilities
              && r.value.photos == d.photos
    ensures r.Some? && d.status.None? ==> r.value.status == Pending
    ensures r.Some? && d.status.Some? ==> r.value.status == d.status.value
  {
    if !Required(d.name) || !Required(d.kind) then None
    else match d.position
      case RawPosition(Some(lat), Some(lng)) =>
        var status := d.status.GetOr(DefaultStatus);
        if status !in allowed then None
        else Some(Place(d.name.value, d.kind.value, d.description, Position(lat, lng),
                        d.facilities, d.photos, status))
      case _ => None
  }

  /** The draft that describes a stored document field for field. */
  function ToDraft(p: Place): Draft {
    Draft(Some(p.name), Some(p.kind), p.description, RawPosition(Some(p.position.lat), Some(p.position.lng)),
          p.facilities, p.photos, Some(p.status))
  }

  /** Validation accepts exactly the conforming documents and returns them unchanged. */
  lemma ValidateRoundTrip(p: Place, allowed: set<Status>)
    ensures Validate(ToDraft(p), allowed).Some? <==> Conforms(p, allowed)
    ensures Conforms(p, allowed) ==> Validate(ToDraft(p), allowed) == Some(p)
  {
  }

  /** A draft without a status is validated the same way under either enum, since the default is listed in both. */
  lemma DefaultStatusInBothEnums(d: Draft)
    requires d.status.None?
    ensures Validate(d, WrittenStatuses) == Validate(d, Statuses)
  {
  }

  /** The written enum refuses a stored rejected document that the corrected enum accepts. */
  lemma RejectedOutsideWrittenEnum(p: Place)
    requires |p.name| > 0 && |p.kind| > 0 && p.status == Rejected
    ensures !Conforms(p, WrittenStatuses)
    ensures Conforms(p, Statuses)
  {
  }
}

=== FILE: private_route.dfy ===
/**
  The client's route guard `PrivateRoute`: from the stored token, the route's
  role prop and the client-side payload decoder, decide whether to render the
  guarded page or redirect. Decoding (`atob` of the second dot-separated part,
  then `JSON.parse`) is an oracle that yields the payload or fails.
 */
module PrivateRoute {
  import opened Wrappers

  /** The `role` prop: absent, one role, or a list of roles. */
  datatype RoleProp = NoRole | OneRole(role: string) | RoleList(roles: seq<string>)

  /** The decoded token payload; its role claim may be missing. */
  datatype Payload = Payload(role: Option<string>)

  type Decoder = string -> Option<Payload>

  datatype Decision = Render | RedirectHome | RedirectUnauthorized

  /** A stored token counts only when it is a non-empty string. */
  function HasToken(token: Option<string>): (ok: bool)
    ensures ok <==> token != None && token != Some("")
  {
    token.Some? && token.value != ""
  }

  /** JavaScript truthiness of the prop: a list is truthy even when empty, an empty string is not. */
  function RoleTruthy(p: RoleProp): (ok: bool)
    ensures !ok <==> p == NoRole || p == OneRole("")
  {
    match p
    case NoRole => false
    case OneRole(r) => r != ""
    case RoleList(_) => true
  }

  /** `Array.isArray(role) ? role : [role]`, with None standing for an `undefined` element. */
  function AllowedRoles(p: RoleProp): (allowed: seq<Option<string>>)
    ensures p.OneRole? ==> allowed == [Some(p.role)]
    ensures p.RoleList? ==> |allowed| == |p.roles| && forall i :: 0 <= i < |p.roles| ==> allowed[i] == Some(p.roles[i])
    ensures p.NoRole? ==> allowed == [None]
  {
    match p
    case NoRole => [None]
    case OneRole(r) => [Some(r)]
    case RoleList(rs) => seq(|rs|, i requires 0 <= i < |rs| => Some(rs[i]))
  }

  /** The guard refuses: `role` is truthy and its list does not include the decoded role. */
  function Refuses(p: RoleProp, userRole: Option<string>): (refused: bool)
    ensures !RoleTruthy(p) ==> !refused
    ensures p.OneRole? && p.role != "" ==> (refused <==> userRole != Some(p.role))
    ensures p.RoleList? ==> (refused <==> !(userRole.Some? && userRole.value in p.roles))
  {
    RoleTruthy(p) && userRole !in AllowedRoles(p)
  }

  /** The guard's decision. */
  function Decide(token: Option<string>, p: RoleProp, decode: Decoder): (d: Decision)
    ensures !HasToken(token) ==> d == RedirectHome
    ensures HasToken(token) && decode(token.value).None? ==> d == RedirectHome
    ensures d == Render <==>
              HasToken(token) && decode(token.value).Some? && !Refuses(p, decode(token.value).value.role)
    ensures d == RedirectUnauthorized <==>
              HasToken(token) && decode(token.value).Some? && Refuses(p, decode(token.value).value.role)
  {
    if !HasToken(token) then RedirectHome
    else match decode(token.value)
      case None => RedirectHome // decoding threw
      case Some(payload) => if Refuses(p, payload.role) then RedirectUnauthorized else Render
  }

  /** Without a token the decoder is never consulted. */
  lemma NoTokenIgnoresDecoder(token: Option<string>, p: RoleProp, d1: Decoder, d2: Decoder)
    requires !HasToken(token)
    ensures Decide(token, p, d1) == Decide(token, p, d2) == RedirectHome
  {
  }

  /** A scalar role prop behaves as the one-element list holding it. */
  lemma ScalarRoleIsSingletonList(token: Option<string>, role: string, decode: Decoder)
    requires role != ""
    ensures Decide(token, OneRole(role), decode) == Decide(token, RoleList([role]), decode)
  {
    assert AllowedRoles(RoleList([role])) == [Some(role)];
  }

  /** An empty scalar prop is falsy and admits every decodable token, while the list holding "" admits only a role claim equal to "". */
  lemma EmptyScalarRoleIsNotItsList(token: Option<string>, decode: Decoder)
    requires HasToken(token) && decode(token.value).Some?
    ensures Decide(token, OneRole(""), decode) == Render
    ensures Decide(token, RoleList([""]), decode) == Render <==> decode(token.value).value.role == Some("")
  {
    assert AllowedRoles(RoleList([""])) == [Some("")];
  }

  /** With no role prop any decodable token renders the page, whatever its role. */
  lemma FalsyRoleRendersAny(token: Option<string>, p: RoleProp, decode: Decoder)
    requires !RoleTruthy(p)
    requires HasToken(token) && decode(token.value).Some?
    ensures Decide(token, p, decode) == Render
  {
  }

  /** With a role list, a decodable token renders exactly when its role claim is in the list. */
  lemma ListedRoleRenders(token: Option<string>, roles: seq<string>, decode: Decoder)
    requires HasToken(token) && decode(token.value).Some?
    ensures var role := decode(token.value).value.role;
            Decide(token, RoleList(roles), decode) == Render <==> role.Some? && role.value in roles
    ensures var role := decode(token.value).value.role;
            Decide(token, RoleList(roles), decode) == RedirectUnauthorized <==> !(role.Some? && role.value in roles)
  {
    var role := decode(token.value).value.role;
    if role.Some? && role.value in roles {
      var i :| 0 <= i < |roles| && roles[i] == role.value;
      assert AllowedRoles(RoleList(roles))[i] == role;
    }
  }
}

=== FILE: seqs.dfy ===
/** Order-preserving filtering of sequences, the model of `Array.prototype.filter`. */
module Seqs {

  /** The elements of `s` that satisfy `keep`, in their original order. */
  function Filter<T(==,!new)>(s: seq<T>, keep: T -> bool): (r: seq<T>)
    ensures |r| <= |s|
    ensures forall i :: 0 <= i < |r| ==> keep(r[i])
    ensures forall x :: keep(x) ==> multiset(r)[x] == multiset(s)[x]
    ensures forall x :: !keep(x) ==> multiset(r)[x] == 0
    ensures (forall i :: 0 <= i < |s| ==> keep(s[i])) ==> r == s
  {
    if |s| == 0 then []
    else
      assert s == [s[0]] + s[1..];
      if keep(s[0]) then [s[0]] + Filter(s[1..], keep) else Filter(s[1..], keep)
  }

  /** Filtering distributes over concatenation, so the relative order of kept elements is preserved. */
  lemma {:induction false} FilterAppend<T(!new)>(a: seq<T>, b: seq<T>, keep: T -> bool)
    ensures Filter(a + b, keep) == Filter(a, keep) + Filter(b, keep)
  {
    if |a| == 0 {
      assert a + b == b;
    } else {
      assert (a + b)[1..] == a[1..] + b;
      FilterAppend(a[1..], b, keep);
    }
  }
}

=== FILE: text.dfy ===
/** String helpers mirroring the JavaScript string methods the source uses. */
module Text {

  /** `s.startsWith(prefix)`. */
  predicate StartsWith(s: string, prefix: string) {
    |prefix| <= |s| && s[..|prefix|] == prefix
  }

  /** Position of the first `c` in `s`, or `|s|` when there is none. */
  function IndexOf(s: string, c: char): (k: nat)
    ensures k <= |s|
    ensures k < |s| ==> s[k] == c
    ensures forall j :: 0 <= j < k ==> s[j] != c
    ensures k == |s| <==> c !in s
  {
    if |s| == 0 then 0
    else if s[0] == c then 0
    else 1 + IndexOf(s[1..], c)
  }

  /** `s.split(sep)` for a one-character separator: every field between two separators, empty fields included. */
  function Split(s: string, sep: char): (fields: seq<string>)
    ensures |fields| >= 1
    ensures forall i :: 0 <= i < |fields| ==> sep !in fields[i]
    decreases |s|
  {
    var k := IndexOf(s, sep);
    if k == |s| then [s]
    else
      assert forall j :: 0 <= j < k ==> s[..k][j] != sep;
      [s[..k]] + Split(s[k + 1..], sep)
  }

  /** `fields.join(sep)`, the inverse of Split. */
  function Join(fields: seq<string>, sep: char): string
    requires |fields| >= 1
  {
    if |fields| == 1 then fields[0] else fields[0] + [sep] + Join(fields[1..], sep)
  }

  /** Joining the fields of a split gives back the original string. */
  lemma {:induction false} JoinSplit(s: string, sep: char)
    ensures Join(Split(s, sep), sep) == s
    decreases |s|
  {
    var k := IndexOf(s, sep);
    if k < |s| {
      var tail := s[k + 1..];
      var fields := Split(s, sep);
      assert fields == [s[..k]] + Split(tail, sep);
      assert fields[1..] == Split(tail, sep);
      JoinSplit(tail, sep);
      assert Join(fields, sep) == s[..k] + [sep] + tail;
      assert s == s[..k] + [sep] + tail;
    }
  }

  /** Splitting a join of separator-free fields gives back the fields. */
  lemma {:induction false} SplitJoin(fields: seq<string>, sep: char)
    requires |fields| >= 1
    requires forall i :: 0 <= i < |fields| ==> sep !in fields[i]
    ensures Split(Join(fields, sep), sep) == fields
  {
    if |fields| > 1 {
      var s := Join(fields, sep);
      var head := fields[0];
      var rest := Join(fields[1..], sep);
      assert s == head + [sep] + rest;
      assert s[|head|] == sep;
      assert IndexOf(s, sep) == |head|;
      assert s[..|head|] == head;
      assert s[|head| + 1..] == rest;
      SplitJoin(fields[1..], sep);
    }
  }

  /** The field after a separator-free head and one separator is the rest up to its first separator. */
  lemma SecondField(head: string, sep: char, rest: string)
    requires sep !in head
    ensures |Split(head + [sep] + rest, sep)| >= 2
    ensures Split(head + [sep] + rest, sep)[1] == rest[..IndexOf(rest, sep)]
  {
    var s := head + [sep] + rest;
    assert s[|head|] == sep;
    assert IndexOf(s, sep) == |head|;
    assert s[|head| + 1..] == rest;
  }
}

=== FILE: wrappers.dfy ===
/** Optional values: JavaScript's `undefined`/`null` and failing oracles. */
module Wrappers {

  datatype Option<+T> = None | Some(value: T) {

    /** Returns the value held in Some, or `default` for None. */
    function GetOr(default: T): T {
      match this
      case Some(v) => v
      case None => default
    }
  }
}
